=== FILE: README.md ===
# Prescription-data file paths

A Dafny model of the path logic in `pxdatautil.py`. That module locates
the monthly NHS prescribing data files on disk. Each month's three files
sit under the data root in a directory named
`<YYYY>_<MM>_<MonthName>/`. Each file name is the stem `T<YYYY><MM>`
followed by a fixed suffix:

- `ADDR BNFT.CSV` for practice addresses;
- `CHEM SUBS.CSV` for chemical substances;
- `PDPI BNFT.CSV` for the prescriptions themselves.

The model covers:

- the year and month validation;
- the prefix of one month;
- the per-kind path of one month;
- the month-range generator, as a literal `while` loop;
- the per-kind path lists over a range;
- the list-building part of the data check.

There are four modules:

- `Decimal`: `str(n)` and the `"{:0>2}"` zero fill, with a digit-string
  reader as their inverse.
- `Calendar`: year-month values, the range loop's increment-and-wrap step
  (`Next`, `Advance`), a linear month index, and the English month names.
- `PathPrefix`: validation, the prefix, the per-kind paths, and parsers
  that read the month and kind back out of a path.
- `PathRange`: the range loop and its closed-form outcome, the corrected
  loop, the per-kind lists, and the data check's lists.

A failed Python `assert` becomes an error value:

- `YearOutOfRange`, from the year check;
- `MonthOutOfRange`, from the month check;
- `FromAfterTo`, from the range check.

The year is always checked before the month.

The range loop is written once, as `PathRange.WalkMonths`. It takes the
per-month call as a function parameter that checks its arguments as the
prefix builder does. The prefix builder itself is `PathRange.PrefixStep`.
`RangeSpec` is the loop's closed form. For any inputs it is one of:

- the range error;
- the first month's validation error;
- one prefix per month up to, but not including, the exit month
  `(year_to, month_to + 1)`;
- a year error at January 3001, when the loop never meets the exit month.

The last case is what happens for a December end month. See Findings.

## Model

| member | source | states |
|---|---|---|
| Decimal.ToDecimalDigits | pxdatautil.py:111 | the decimal rendering of a year is a non-empty digit string with no leading zero unless the value is zero |
| Decimal.FromToDecimal | pxdatautil.py:111-113 | the year digits written into the path read back as the year |
| Decimal.DecimalLength | pxdatautil.py:111 | every accepted year (2010..3000) renders with exactly four digits |
| Decimal.ZeroPad2Digits | pxdatautil.py:111-113 | the zero-filled month is two digits for months below 100 and reads back as the month |
| Calendar.MonthName | pxdatautil.py:111 | every valid month has a full month name of 3 to 9 characters |
| Calendar.Next | pxdatautil.py:98-102 | one step of the loop moves a genuine month to the next one on the calendar, carrying into the next year after December |
| Calendar.Advance | pxdatautil.py:95-102 | after n steps the loop is n months further along and never in an earlier year |
| Calendar.MonthIndexInjective | pxdatautil.py:95 | two genuine months are equal exactly when their positions on the calendar are |
| Calendar.CalendarOrderIsIndexOrder | pxdatautil.py:89 | the year-then-month comparison of the range check is calendar order |
| Calendar.AdvanceReaches | pxdatautil.py:95-102 | stepping from a month reaches every later month without skipping one |
| PathPrefix.FilePathPrefix | pxdatautil.py:107-121 | a prefix is produced exactly for years 2010..3000 and months 1..12; otherwise the year error comes first, then the month error |
| PathPrefix.ValidationBounds | pxdatautil.py:117-121 | both bounds are inclusive; 2009, 3001, month 0 and month 13 are rejected; an invalid year masks an invalid month |
| PathPrefix.DirectoryLayout | pxdatautil.py:111 | the directory is four year digits, '_', two month digits, '_', the month's name, '/' |
| PathPrefix.StemLayout | pxdatautil.py:113 | the file stem is 'T', four year digits, two month digits |
| PathPrefix.PrefixLayout | pxdatautil.py:111-113 | the prefix is the root unchanged followed by the directory and the stem, at fixed offsets, with the year and month digits repeated in the stem |
| PathPrefix.PrefixRoundTrip | pxdatautil.py:107-113 | parsing a prefix recovers its month, and the prefix starts with the root |
| PathPrefix.PrefixInjective | pxdatautil.py:107-113 | two months share a prefix exactly when they are the same month |
| PathPrefix.April2013Prefix | pxdatautil.py:107-113 | April 2013 under the default root is `./full_data/2013_04_April/T201304` |
| PathPrefix.DataFilepath | pxdatautil.py:61-68 | a month's file path fails exactly as its prefix does, otherwise extends the prefix by the kind's 13-character suffix, from which the kind and the month read back |
| PathPrefix.SuffixedPrefix | pxdatautil.py:61-68 | appending a kind's suffix to a prefix keeps both the kind and the month recoverable |
| PathPrefix.April2013Address | pxdatautil.py:61-62 | the April 2013 address file path under the default root |
| PathRange.PrefixStep | pxdatautil.py:96 | the call the loop makes per month validates as the prefix builder does |
| PathRange.WalkFails | pxdatautil.py:95-96 | a failing call inside the loop ends the walk with that call's error |
| PathRange.WalkSucceeds | pxdatautil.py:95-102 | a successful call appends its prefix and keeps the walk below January 3001 and not past the exit month |
| PathRange.WalkArrives | pxdatautil.py:95-104 | meeting the exit month ends the walk with one prefix per month visited |
| PathRange.WalkMonths | pxdatautil.py:91-104 | the loop, for any per-month call that validates like the prefix builder, returns the closed-form outcome |
| PathRange.DataFilepathPrefixes | pxdatautil.py:87-104 | the range generator as written returns the closed-form outcome `RangeSpec` for every input, including the non-terminating exit tests |
| PathRange.StepsArePrefixes | pxdatautil.py:96 | entry i of a walk is the prefix of the month i steps after the start |
| PathRange.RangeRejectsReversed | pxdatautil.py:89 | the range error is returned exactly when "from" is after "to" |
| PathRange.RangeEntries | pxdatautil.py:95-102 | entry i of a successful range is the prefix of the month i places after "from" and parses back to it |
| PathRange.RangeStrictlyIncreasing | pxdatautil.py:95-102 | the months of a successful range strictly increase, so no prefix repeats |
| PathRange.RangeIsWalk | pxdatautil.py:95-104 | for valid ends with "to" before December the range is the walk of one prefix per month, both ends included |
| PathRange.RangeCount | pxdatautil.py:87-104 | for valid ends with "to" before December the range succeeds, holds (to − from) + 1 entries and starts and ends on the prefixes of "from" and "to" |
| PathRange.RangeSingleMonth | pxdatautil.py:95 | a one-month range of January..November is exactly that month's prefix |
| PathRange.NoExitEndsInYearError | pxdatautil.py:95-102 | when month_to + 1 is not a month the wrap produces, the loop runs on until the year check fails |
| PathRange.DecemberRangeFails | pxdatautil.py:95 | December 2013 to December 2013 ends in the year error |
| PathRange.MonthZeroEndsInDecember | pxdatautil.py:95-102 | month_to = 0 is accepted and the range ends with December of the year before year_to |
| PathRange.RangeAcrossYearEnd | pxdatautil.py:95-102 | November 2013 to February 2014 gives four months in order across the year boundary |
| PathRange.OutcomeEntries | pxdatautil.py:95-102 | entry i of any successful walk of prefixes is the prefix of the month i steps after the start and parses back to it |
| PathRange.InclusivePrefixes | pxdatautil.py:87-104 | the corrected generator returns its closed form; with valid ends it succeeds with (to − from) + 1 entries, entry i being the prefix of the month i places after "from", December or not |
| PathRange.InclusiveIsWalk | pxdatautil.py:87-104 | with valid ends the corrected range is the walk of one prefix per month from "from" to "to" |
| PathRange.InclusiveRange | pxdatautil.py:87-104 | with valid ends the corrected range succeeds with (to − from) + 1 entries from the prefix of "from" to the prefix of "to" |
| PathRange.DecemberRangeIncluded | pxdatautil.py:95 | the corrected generator returns December 2013 for the December 2013 range |
| PathRange.CorrectedExit | pxdatautil.py:95-102 | the corrected exit month is month_to + 1 of year_to for every month_to except 12, and for a valid "to" it is the month the loop's wrap reaches after "to" |
| PathRange.CorrectionOnlyDecember | pxdatautil.py:95 | the corrected and the as-written generators agree on every input whose month_to is not 12; for a valid December range the as-written one fails with the year error and the corrected one succeeds |
| PathRange.MonthThirteenStillFails | pxdatautil.py:89-102 | a month_to of 13 passes the range check, never meets its exit month, and ends in the year error in the corrected generator too |
| PathRange.DataFilepaths | pxdatautil.py:72-83 | a kind's path list fails as the range does; otherwise it is the prefix list with the kind's suffix on each entry, each naming its kind and the month i places after "from" |
| PathRange.CheckDataLists | pxdatautil.py:125-128 | the data check's three lists fail together with the range's error or have equal lengths; entry i of each is the range's prefix i followed by that list's kind suffix, so at each index they name the same month with the three kinds; with valid ends they hold one path per month |
| PathRange.CheckedPaths | pxdatautil.py:131-134 | files are checked month by month, address then chemicals then prescriptions |

## Left out

- The pandas loaders (`pxdatautil.py:33-57`) read CSV files into data frames. That is file I/O and a foreign library.
- `file_check` (`pxdatautil.py:137-139`) tests the file system and prints a warning. Only the order of the checked paths is modelled (`PathRange.CheckedPaths`).
- The module-level `root_data_dir` is a `root` parameter of every member that builds a path. `DefaultRoot` records its default value.
- `Calendar.MonthName`: the month name comes from `strptime`/`strftime('%B')`, which depends on the locale. The model fixes the English names of the C locale.
- Python run with `-O` strips `assert` statements. The model keeps the assertions. Without them any year is accepted (`pxdatautil.py:118`) and so is a "from" after "to" (`pxdatautil.py:89`). A month outside 1..12 still fails, with a `ValueError` from the `strptime(str(month), '%m')` call at `pxdatautil.py:111`. A range that never meets its exit month then loops forever instead of failing at January 3001: a December `month_to`, a `month_to` of 13 or more, and a reversed range.
- The three per-kind functions of each group are one member with a `DataKind` parameter: single months at `pxdatautil.py:61-68` and ranges at `pxdatautil.py:72-83`. The three members of a group differ only in the suffix.
- A Python `AssertionError` is an exception. The model returns it as an error value; its message text is not modelled.
- Integers are unbounded, as in Python.
- `PathRange.DataFilepaths` is built on the corrected range generator, not the one as written, because the December exit test is a bug (see Findings). For a valid range with `month_to = 12` it returns one path per month, December included, where `pxdatautil.py` fails with the year error at January 3001. On every other input the two generators agree (`PathRange.CorrectionOnlyDecember`), including the year error for a `month_to` of 13 or more.
- `PathRange.CheckDataLists` builds its three lists with `PathRange.DataFilepaths`, so it inherits the same correction (see Findings). For a valid range with `month_to = 12`, such as December 2013 to December 2013, it returns three lists with one entry per month, December included, where `pxdatautil.py` fails with the year error at January 3001. On every other input its outcome is that of the generator as written (`PathRange.CorrectionOnlyDecember`).
- `PathRange.InclusivePrefixes`: for an invalid "to" its contract states only the closed form. It does not enumerate the outcome case by case.

## Findings

| source | as written | input that shows it | evidently intended | confidence | as-written member | corrected member |
|---|---|---|---|---|---|---|
| pxdatautil.py:95 | the loop stops when the current month equals `(year_to, month_to + 1)`; for `month_to = 12` that is month 13, which the wrap at line 100 never produces, so the loop runs until `get_file_path_prefix` rejects year 3001 | `get_data_filepath_prefixes(2013, 12, 2013, 12)` | a range ending in December stops at January of the next year and includes December | not executed | PathRange.DataFilepathPrefixes, PathRange.DecemberRangeFails, PathRange.NoExitEndsInYearError | PathRange.CorrectedExit, PathRange.InclusivePrefixes, PathRange.InclusiveRange, PathRange.DecemberRangeIncluded |

=== FILE: calendar.dfy ===
/** Year-month values, the month-by-month step of the range generator with
    its carry into the year, and the English month names that the data
    directories use. */
module Calendar {

  /** A calendar month; neither field is constrained, because the range
      generator accepts any integers and validates them one month at a time. */
  datatype YearMonth = YearMonth(year: int, month: int)

  /** Months are 1-indexed: pxdatautil.py accepts 0 < month < 13. */
  predicate ValidMonth(month: int) {
    0 < month < 13
  }

  const MonthNames: seq<string> :=
    ["January", "February", "March", "April", "May", "June",
     "July", "August", "September", "October", "November", "December"]

  /** The full English name of a month, as `strftime('%B')` gives it in the
      C locale. */
  function MonthName(month: int): (name: string)
    requires ValidMonth(month)
    ensures 3 <= |name| <= 9
  {
    MonthNames[month - 1]
  }

  /** Position of a month on a single line of months: January of year 0 is 0,
      and each month is one more than the month before it. */
  function MonthIndex(d: YearMonth): int {
    d.year * 12 + (d.month - 1)
  }

  /** One step of the range loop: add one to the month and, past December,
      restart at January of the following year. */
  function Next(d: YearMonth): (r: YearMonth)
    ensures ValidMonth(d.month) ==> ValidMonth(r.month) && MonthIndex(r) == MonthIndex(d) + 1
    ensures r.year == d.year || (r.year == d.year + 1 && r.month == 1)
  {
    var month := d.month + 1;
    if month > 12 then YearMonth(d.year + 1, 1) else YearMonth(d.year, month)
  }

  /** The month reached after `n` steps of the range loop from `d`. */
  function Advance(d: YearMonth, n: nat): (r: YearMonth)
    ensures ValidMonth(d.month) ==> ValidMonth(r.month) && MonthIndex(r) == MonthIndex(d) + n
    ensures r.year >= d.year
  {
    if n == 0 then d else Next(Advance(d, n - 1))
  }

  /** On genuine months the linear index determines the month, so two months
      are equal exactly when their indices are. */
  lemma MonthIndexInjective(a: YearMonth, b: YearMonth)
    requires ValidMonth(a.month) && ValidMonth(b.month)
    ensures a == b <==> MonthIndex(a) == MonthIndex(b)
  {
  }

  /** Calendar order (year first, then month) agrees with the linear index. */
  lemma CalendarOrderIsIndexOrder(a: YearMonth, b: YearMonth)
    requires ValidMonth(a.month) && ValidMonth(b.month)
    ensures (a.year < b.year || (a.year == b.year && a.month <= b.month))
            <==> MonthIndex(a) <= MonthIndex(b)
  {
  }

  /** Every month at or after a genuine month `d` is reached from `d` by the
      loop's step: `Advance` walks the calendar without skipping a month. */
  lemma {:induction false} AdvanceReaches(d: YearMonth, e: YearMonth)
    requires ValidMonth(d.month) && ValidMonth(e.month)
    requires MonthIndex(d) <= MonthIndex(e)
    ensures Advance(d, MonthIndex(e) - MonthIndex(d)) == e
  {
    var n := MonthIndex(e) - MonthIndex(d);
    MonthIndexInjective(Advance(d, n), e);
  }
}

=== FILE: decimal.dfy ===
/** Decimal rendering of natural numbers, as Python's `str(n)` and the
    zero-fill format spec `"{:0>2}"` produce it, and the inverse reading
    of a digit string back into its value. */
module Decimal {

  predicate IsDigit(c: char) {
    '0' <= c <= '9'
  }

  predicate AllDigits(s: string) {
    forall i :: 0 <= i < |s| ==> IsDigit(s[i])
  }

  function DigitChar(d: nat): (c: char)
    requires d < 10
    ensures IsDigit(c)
    ensures c == '0' <==> d == 0
  {
    ('0' as int + d) as char
  }

  function DigitValue(c: char): (d: nat)
    requires IsDigit(c)
    ensures d < 10
    ensures DigitChar(d) == c
  {
    c as int - '0' as int
  }

  /** The value of a string of decimal digits, most significant digit first;
      the empty string reads as zero. */
  function FromDecimal(s: string): nat
    requires AllDigits(s)
    decreases |s|
  {
    if |s| == 0 then 0 else FromDecimal(s[..|s| - 1]) * 10 + DigitValue(s[|s| - 1])
  }

  /** `str(n)` for a non-negative integer. */
  function ToDecimal(n: nat): string {
    if n < 10 then [DigitChar(n)] else ToDecimal(n / 10) + [DigitChar(n % 10)]
  }

  /** `str(n)` has at least one digit, only digits, and no leading zero
      unless the number is zero itself. */
  lemma {:induction false} ToDecimalDigits(n: nat)
    ensures var s := ToDecimal(n);
      1 <= |s| && AllDigits(s) && (s[0] == '0' <==> n == 0)
  {
    if n >= 10 {
      ToDecimalDigits(n / 10);
    }
  }

  /** Reading back what `ToDecimal` wrote gives the number again. */
  lemma {:induction false} FromToDecimal(n: nat)
    ensures AllDigits(ToDecimal(n)) && FromDecimal(ToDecimal(n)) == n
  {
    ToDecimalDigits(n);
    var s := ToDecimal(n);
    if n >= 10 {
      assert s[..|s| - 1] == ToDecimal(n / 10);
      FromToDecimal(n / 10);
    } else {
      assert s[..|s| - 1] == [];
    }
  }

  /** The number of digits `str(n)` has for numbers below ten thousand. */
  lemma {:induction false} DecimalLength(n: nat)
    ensures n < 10 ==> |ToDecimal(n)| == 1
    ensures 10 <= n < 100 ==> |ToDecimal(n)| == 2
    ensures 100 <= n < 1000 ==> |ToDecimal(n)| == 3
    ensures 1000 <= n < 10000 ==> |ToDecimal(n)| == 4
  {
    if n >= 10 {
      DecimalLength(n / 10);
    }
  }

  /** A leading zero does not change the value of a digit string. */
  lemma {:induction false} LeadingZero(s: string)
    requires AllDigits(s)
    ensures AllDigits("0" + s) && FromDecimal("0" + s) == FromDecimal(s)
  {
    var t := "0" + s;
    if |s| == 0 {
      assert t[..|t| - 1] == [];
    } else {
      assert t[..|t| - 1] == "0" + s[..|s| - 1];
      LeadingZero(s[..|s| - 1]);
    }
  }

  /** `"{:0>2}".format(n)`: `str(n)` left-filled with '0' to width two. */
  function ZeroPad2(n: nat): string {
    var d := ToDecimal(n);
    if |d| < 2 then "0" + d else d
  }

  /** Below one hundred the padded form is exactly two digits, and it reads
      back as the number; above, it is `str(n)` unchanged. */
  lemma ZeroPad2Digits(n: nat)
    ensures var s := ZeroPad2(n);
      && AllDigits(s) && FromDecimal(s) == n
      && (n < 100 ==> |s| == 2)
      && (10 <= n ==> s == ToDecimal(n))
  {
    FromToDecimal(n);
    DecimalLength(n);
    if n < 10 {
      LeadingZero(ToDecimal(n));
    }
  }
}

=== FILE: prefix.dfy ===
/** Single-month paths: the bounds checks on year and month, the common
    prefix `<root><YYYY>_<MM>_<MonthName>/T<YYYY><MM>` of a month's three
    data files, and the three file paths built from it by appending a fixed
    suffix. Parsing functions read the month back out of a path. */
module PathPrefix {
  import opened Decimal
  import opened Calendar

  /** The assertion failures of pxdatautil.py, as values. */
  datatype PathError = YearOutOfRange | MonthOutOfRange | FromAfterTo

  datatype Result<T> = Ok(value: T) | Err(error: PathError)

  datatype Option<T> = None | Some(value: T)

  /** The default of pxdatautil.py for its module-level data directory. */
  const DefaultRoot: string := "./full_data/"

  const FirstYear: int := 2010
  const LastYear: int := 3000

  /** The year bound pxdatautil.py checks before building any path. */
  predicate ValidYear(year: int) {
    FirstYear <= year <= LastYear
  }

  predicate ValidDate(d: YearMonth) {
    ValidYear(d.year) && ValidMonth(d.month)
  }

  /** `<YYYY>_<MM>_<MonthName>/`, the month's directory under the root. */
  function DirectoryName(d: YearMonth): string
    requires ValidDate(d)
  {
    ToDecimal(d.year) + "_" + ZeroPad2(d.month) + "_" + MonthName(d.month) + "/"
  }

  /** `T<YYYY><MM>`, the part of the file name shared by the month's files. */
  function FileStem(d: YearMonth): string
    requires ValidDate(d)
  {
    "T" + ToDecimal(d.year) + ZeroPad2(d.month)
  }

  /** The prefix of a month that has already passed validation. */
  function FormatPrefix(root: string, d: YearMonth): string
    requires ValidDate(d)
  {
    root + DirectoryName(d) + FileStem(d)
  }

  /** The prefix of a month: the year is validated first, then the month,
      and only a month that passes both gets a path. */
  function FilePathPrefix(root: string, year: int, month: int): (r: Result<string>)
    ensures r.Ok? <==> ValidYear(year) && ValidMonth(month)
    ensures !ValidYear(year) ==> r == Err(YearOutOfRange)
    ensures ValidYear(year) && !ValidMonth(month) ==> r == Err(MonthOutOfRange)
    ensures r.Ok? ==> r.value == FormatPrefix(root, YearMonth(year, month))
  {
    if !ValidYear(year) then Err(YearOutOfRange)
    else if !ValidMonth(month) then Err(MonthOutOfRange)
    else Ok(FormatPrefix(root, YearMonth(year, month)))
  }

  /** Reads the month back out of a prefix: its last six characters are the
      four-digit year and the two-digit month. */
  function YearMonthOfPrefix(prefix: string): Option<YearMonth> {
    var n := |prefix|;
    if n >= 6 && AllDigits(prefix[n - 6..]) then
      Some(YearMonth(FromDecimal(prefix[n - 6..n - 2]), FromDecimal(prefix[n - 2..])))
    else None
  }

  /** The pieces of a concatenation of three strings are found at their
      offsets. */
  lemma Pieces(a: string, b: string, c: string)
    ensures (a + b + c)[..|a|] == a
    ensures (a + b + c)[|a|..|a| + |b|] == b
    ensures (a + b + c)[|a| + |b|..] == c
  {
    var s := a + b + c;
    assert s[..|a|] == a;
    assert s[|a|..|a| + |b|] == b;
    assert s[|a| + |b|..] == c;
  }

  /** The directory of a valid month: four year digits, '_', two month
      digits, '_', the month's name and '/'. */
  lemma DirectoryLayout(d: YearMonth)
    requires ValidDate(d)
    ensures var s, name := DirectoryName(d), MonthName(d.month);
      && |s| == 9 + |name|
      && s[..4] == ToDecimal(d.year) && s[4] == '_'
      && s[5..7] == ZeroPad2(d.month) && s[7] == '_'
      && s[8..8 + |name|] == name && s[8 + |name|] == '/'
  {
    DecimalLength(d.year);
    ZeroPad2Digits(d.month);
    var y, m, name := ToDecimal(d.year), ZeroPad2(d.month), MonthName(d.month);
    Pieces(y + "_" + m + "_", name, "/");
    Pieces(y, "_", m + "_" + name + "/");
    Pieces(y + "_", m, "_" + name + "/");
  }

  /** The file stem of a valid month: 'T', four year digits and two month
      digits. */
  lemma StemLayout(d: YearMonth)
    requires ValidDate(d)
    ensures var t := FileStem(d);
      |t| == 7 && t[0] == 'T' && t[1..5] == ToDecimal(d.year) && t[5..] == ZeroPad2(d.month)
  {
    DecimalLength(d.year);
    ZeroPad2Digits(d.month);
    Pieces("T", ToDecimal(d.year), ZeroPad2(d.month));
  }

  /** For a valid month the prefix has exactly the documented layout: the
      root unchanged, the year in four digits, '_', the month in two digits,
      '_', the month's name, "/T", and the same year and month digits again. */
  lemma PrefixLayout(root: string, d: YearMonth)
    requires ValidDate(d)
    ensures var p, l, name := FormatPrefix(root, d), |root|, MonthName(d.month);
      && |p| == l + 16 + |name|
      && p[..l] == root
      && AllDigits(p[l..l + 4]) && FromDecimal(p[l..l + 4]) == d.year
      && p[l + 4] == '_'
      && AllDigits(p[l + 5..l + 7]) && FromDecimal(p[l + 5..l + 7]) == d.month
      && p[l + 7] == '_'
      && p[l + 8..l + 8 + |name|] == name
      && p[l + 8 + |name|..l + 10 + |name|] == "/T"
      && p[l + 10 + |name|..l + 14 + |name|] == p[l..l + 4]
      && p[l + 14 + |name|..] == p[l + 5..l + 7]
  {
    FromToDecimal(d.year);
    ZeroPad2Digits(d.month);
    DirectoryLayout(d);
    StemLayout(d);
    var dir, stem, name := DirectoryName(d), FileStem(d), MonthName(d.month);
    var p, l, k := FormatPrefix(root, d), |root|, |MonthName(d.month)|;
    Pieces(root, dir, stem);
    assert p[l..l + 9 + k] == dir;
    assert p[l + 9 + k..] == stem;
    assert p[l..l + 4] == dir[..4];
    assert p[l + 5..l + 7] == dir[5..7];
    assert p[l + 8..l + 8 + k] == dir[8..8 + k];
    assert p[l + 10 + k..l + 14 + k] == stem[1..5];
    assert p[l + 14 + k..] == stem[5..];
  }

  /** Parsing a prefix recovers the year and month it was built from. */
  lemma PrefixRoundTrip(root: string, d: YearMonth)
    requires ValidDate(d)
    ensures YearMonthOfPrefix(FormatPrefix(root, d)) == Some(d)
    ensures |FormatPrefix(root, d)| > |root| && FormatPrefix(root, d)[..|root|] == root
  {
    PrefixLayout(root, d);
    var p, n := FormatPrefix(root, d), |FormatPrefix(root, d)|;
    var l, k := |root|, |MonthName(d.month)|;
    assert p[n - 6..n - 2] == p[l + 10 + k..l + 14 + k];
    assert p[n - 2..] == p[l + 14 + k..];
    assert p[n - 6..] == p[n - 6..n - 2] + p[n - 2..];
  }

  /** Different months never share a prefix. */
  lemma PrefixInjective(root: string, a: YearMonth, b: YearMonth)
    requires ValidDate(a) && ValidDate(b)
    ensures FormatPrefix(root, a) == FormatPrefix(root, b) <==> a == b
  {
    PrefixRoundTrip(root, a);
    PrefixRoundTrip(root, b);
  }

  /** The three kinds of data file a month has, each named by the month's
      prefix followed by a fixed suffix. */
  datatype DataKind = Address | Chemicals | Prescription {
    function Suffix(): (s: string)
      ensures |s| == SuffixLength
    {
      match this
      case Address => "ADDR BNFT.CSV"
      case Chemicals => "CHEM SUBS.CSV"
      case Prescription => "PDPI BNFT.CSV"
    }
  }

  const SuffixLength: nat := 13

  /** Which kind of file a path names, read from its last thirteen characters. */
  function KindOfPath(path: string): Option<DataKind> {
    var n := |path|;
    if n < SuffixLength then None
    else if path[n - SuffixLength..] == Address.Suffix() then Some(Address)
    else if path[n - SuffixLength..] == Chemicals.Suffix() then Some(Chemicals)
    else if path[n - SuffixLength..] == Prescription.Suffix() then Some(Prescription)
    else None
  }

  /** Reads the month back out of a data file path. */
  function YearMonthOfPath(path: string): Option<YearMonth> {
    if |path| < SuffixLength then None else YearMonthOfPrefix(path[..|path| - SuffixLength])
  }

  /** The path of one month's file of the given kind; fails exactly as the
      prefix does. */
  function DataFilepath(root: string, year: int, month: int, kind: DataKind): (r: Result<string>)
    ensures r.Ok? <==> ValidYear(year) && ValidMonth(month)
    ensures r.Err? ==> r == FilePathPrefix(root, year, month)
    ensures r.Ok? ==> var p := FilePathPrefix(root, year, month).value;
      |r.value| == |p| + SuffixLength && r.value[..|p|] == p
    ensures r.Ok? ==> KindOfPath(r.value) == Some(kind)
    ensures r.Ok? ==> YearMonthOfPath(r.value) == Some(YearMonth(year, month))
  {
    var prefix := FilePathPrefix(root, year, month);
    if prefix.Err? then Err(prefix.error)
    else
      SuffixedPrefix(root, YearMonth(year, month), kind);
      Ok(prefix.value + kind.Suffix())
  }

  /** Appending a suffix keeps the kind and the month readable. */
  lemma SuffixedPrefix(root: string, d: YearMonth, kind: DataKind)
    requires ValidDate(d)
    ensures var path := FormatPrefix(root, d) + kind.Suffix();
      && KindOfPath(path) == Some(kind)
      && YearMonthOfPath(path) == Some(d)
  {
    var p := FormatPrefix(root, d);
    var path := p + kind.Suffix();
    assert path[..|path| - SuffixLength] == p;
    assert path[|path| - SuffixLength..] == kind.Suffix();
    PrefixRoundTrip(root, d);
  }

  /** The pieces of the April 2013 prefix. */
  lemma April2013Pieces()
    ensures ToDecimal(2013) == "2013" && ZeroPad2(4) == "04" && MonthName(4) == "April"
  {
    assert DigitChar(2) == '2' && DigitChar(0) == '0' && DigitChar(1) == '1';
    assert DigitChar(3) == '3' && DigitChar(4) == '4';
    assert ToDecimal(201) == "201";
    assert ToDecimal(4) == "4";
  }

  /** Worked example: the prefix of April 2013 under the default root. */
  lemma April2013Prefix()
    ensures FilePathPrefix(DefaultRoot, 2013, 4) == Ok("./full_data/2013_04_April/T201304")
  {
    April2013Pieces();
    var d := YearMonth(2013, 4);
    assert DirectoryName(d) == "2013_04_April/";
    assert FileStem(d) == "T201304";
    assert FormatPrefix(DefaultRoot, d) == "./full_data/2013_04_April/T201304";
  }

  /** Worked example: the address file of April 2013 under the default root. */
  lemma April2013Address()
    ensures DataFilepath(DefaultRoot, 2013, 4, Address) == Ok("./full_data/2013_04_April/T201304ADDR BNFT.CSV")
  {
    April2013Prefix();
    var p := FilePathPrefix(DefaultRoot, 2013, 4).value;
    assert Address.Suffix() == "ADDR BNFT.CSV";
    assert DataFilepath(DefaultRoot, 2013, 4, Address).value == p + "ADDR BNFT.CSV";
    assert p + "ADDR BNFT.CSV" == "./full_data/2013_04_April/T201304ADDR BNFT.CSV";
  }

  /** The bounds are inclusive: the first and last year and month pass, the
      values just outside fail, the year being reported before the month. */
  lemma ValidationBounds(root: string)
    ensures FilePathPrefix(root, 2010, 1).Ok? && FilePathPrefix(root, 3000, 12).Ok?
    ensures FilePathPrefix(root, 2009, 6) == Err(YearOutOfRange)
    ensures FilePathPrefix(root, 3001, 6) == Err(YearOutOfRange)
    ensures FilePathPrefix(root, 2013, 0) == Err(MonthOutOfRange)
    ensures FilePathPrefix(root, 2013, 13) == Err(MonthOutOfRange)
    ensures FilePathPrefix(root, 3001, 13) == Err(YearOutOfRange)
  {
  }
}

=== FILE: range.dfy ===
/** Month ranges: the prefixes of every month from a "from" month to a "to"
    month, built by a loop that steps one month at a time with carry into
    the year; the per-kind path lists mapped over them; and the three lists
    the data check walks through together. */
module PathRange {
  import opened Calendar
  import opened PathPrefix

  /** The precondition pxdatautil.py puts on a range: "from" is not after "to",
      comparing the year first and then the month. */
  predicate NotAfter(from: YearMonth, to: YearMonth) {
    from.year < to.year || (from.year == to.year && from.month <= to.month)
  }

  /** The first month on the way up that year validation rejects. */
  const Overflow: YearMonth := YearMonth(LastYear + 1, 1)

  /** A per-month call that checks its arguments as the prefix builder does:
      the year first, then the month, succeeding exactly on valid months. */
  ghost predicate ChecksLikePrefix(step: (int, int) -> Result<string>) {
    forall year, month ::
      && (step(year, month).Ok? <==> ValidYear(year) && ValidMonth(month))
      && (!ValidYear(year) ==> step(year, month) == Err(YearOutOfRange))
      && (ValidYear(year) && !ValidMonth(month) ==> step(year, month) == Err(MonthOutOfRange))
  }

  /** The prefix builder under a fixed root, as the range loop calls it. */
  function PrefixStep(root: string): (step: (int, int) -> Result<string>)
    ensures ChecksLikePrefix(step)
  {
    (year, month) => FilePathPrefix(root, year, month)
  }

  /** What `step` returns for the month `i` steps after a valid `from`,
      for a walk that stays below `Overflow`. */
  function StepAt(step: (int, int) -> Result<string>, from: YearMonth, i: nat): string
    requires ChecksLikePrefix(step)
    requires ValidDate(from) && MonthIndex(from) + i < MonthIndex(Overflow)
  {
    var d := Advance(from, i);
    step(d.year, d.month).value
  }

  /** The results of the first `n` months of a walk from a valid `from`. */
  function Steps(step: (int, int) -> Result<string>, from: YearMonth, n: nat): (w: seq<string>)
    requires ChecksLikePrefix(step)
    requires ValidDate(from) && MonthIndex(from) + n <= MonthIndex(Overflow)
    ensures |w| == n
  {
    seq(n, i requires 0 <= i < n => StepAt(step, from, i))
  }

  /** One more step of the walk appends the result of the month reached. */
  lemma StepsStep(step: (int, int) -> Result<string>, from: YearMonth, n: nat)
    requires ChecksLikePrefix(step)
    requires ValidDate(from) && MonthIndex(from) + n < MonthIndex(Overflow)
    ensures var d := Advance(from, n);
      && ValidDate(d)
      && step(d.year, d.month) == Ok(StepAt(step, from, n))
      && Steps(step, from, n + 1) == Steps(step, from, n) + [StepAt(step, from, n)]
  {
    assert Steps(step, from, n + 1)[..n] == Steps(step, from, n);
  }

  /** What the walk returns, in closed form. A valid `from` yields one
      result per month up to, but not including, the exit month, provided
      the exit month is a genuine month after `from` that comes no later
      than `Overflow`; otherwise the walk goes on until the year check fails.
      An invalid `from` fails on the first call, the year checked first. */
  function WalkOutcome(step: (int, int) -> Result<string>, from: YearMonth, exit: YearMonth)
    : Result<seq<string>>
    requires ChecksLikePrefix(step)
  {
    if !ValidYear(from.year) then Err(YearOutOfRange)
    else if !ValidMonth(from.month) then Err(MonthOutOfRange)
    else if ValidMonth(exit.month) && MonthIndex(from) < MonthIndex(exit) <= MonthIndex(Overflow) then
      Ok(Steps(step, from, MonthIndex(exit) - MonthIndex(from)))
    else Err(YearOutOfRange)
  }

  /** While the walk has not met a valid month `e` it started before, one
      more step does not overshoot it. */
  lemma StepTowards(from: YearMonth, e: YearMonth, k: nat)
    requires ValidMonth(from.month) && ValidMonth(e.month)
    requires MonthIndex(from) + k <= MonthIndex(e)
    requires Advance(from, k) != e
    ensures MonthIndex(from) + k + 1 <= MonthIndex(e)
  {
    MonthIndexInjective(Advance(from, k), e);
  }

  /** What holds after `k` successful steps of a walk towards `exit`: the
      start was valid, the walk has not passed `Overflow` nor, when `exit`
      is a genuine month after the start, `exit`. */
  ghost predicate Walked(from: YearMonth, exit: YearMonth, k: nat) {
    && (k > 0 ==> ValidDate(from) && MonthIndex(from) + k <= MonthIndex(Overflow))
    && (ValidDate(from) && ValidMonth(exit.month) && MonthIndex(from) < MonthIndex(exit) ==>
          MonthIndex(from) + k <= MonthIndex(exit))
  }

  /** A step that fails ends the walk with the outcome's error. */
  lemma WalkFails(step: (int, int) -> Result<string>, from: YearMonth, exit: YearMonth, k: nat)
    requires ChecksLikePrefix(step) && Walked(from, exit, k)
    requires Advance(from, k) != exit
    requires step(Advance(from, k).year, Advance(from, k).month).Err?
    ensures WalkOutcome(step, from, exit) == Err(step(Advance(from, k).year, Advance(from, k).month).error)
  {
    if k > 0 && ValidMonth(exit.month) {
      MonthIndexInjective(Advance(from, k), exit);
    }
  }

  /** A step that succeeds keeps the walk within its bounds and appends
      its result. */
  lemma WalkSucceeds(step: (int, int) -> Result<string>, from: YearMonth, exit: YearMonth, k: nat)
    requires ChecksLikePrefix(step) && Walked(from, exit, k)
    requires Advance(from, k) != exit
    requires step(Advance(from, k).year, Advance(from, k).month).Ok?
    ensures Walked(from, exit, k + 1)
    ensures Steps(step, from, k + 1) == (if k == 0 then [] else Steps(step, from, k))
                                         + [step(Advance(from, k).year, Advance(from, k).month).value]
  {
    StepsStep(step, from, k);
    if ValidMonth(exit.month) && MonthIndex(from) < MonthIndex(exit) {
      StepTowards(from, exit, k);
    }
  }

  /** Reaching `exit` ends the walk with the outcome's list. */
  lemma WalkArrives(step: (int, int) -> Result<string>, from: YearMonth, exit: YearMonth, k: nat)
    requires ChecksLikePrefix(step) && Walked(from, exit, k)
    requires from != exit && Advance(from, k) == exit
    ensures k > 0
    ensures WalkOutcome(step, from, exit) == Ok(Steps(step, from, k))
  {
    MonthIndexInjective(Advance(from, k), exit);
  }

  /** The loop of the range generator: call `step` on the current month,
      append its result, add one to the month and wrap past December into
      the next year, until the current month is the exit month. A call that
      fails ends the walk with its error. */
  method WalkMonths(step: (int, int) -> Result<string>, from: YearMonth, exit: YearMonth)
    returns (r: Result<seq<string>>)
    requires ChecksLikePrefix(step)
    requires from != exit
    ensures r == WalkOutcome(step, from, exit)
  {
    var results: seq<string> := [];
    var currentYear, currentMonth := from.year, from.month;
    while !(currentYear == exit.year && currentMonth == exit.month)
      invariant YearMonth(currentYear, currentMonth) == Advance(from, |results|)
      invariant Walked(from, exit, |results|)
      invariant |results| > 0 ==> results == Steps(step, from, |results|)
      decreases MonthIndex(Overflow) - MonthIndex(from) - |results|
    {
      var result := step(currentYear, currentMonth);
      if result.Err? {
        WalkFails(step, from, exit, |results|);
        return Err(result.error);
      }
      WalkSucceeds(step, from, exit, |results|);
      results := results + [result.value];
      currentMonth := currentMonth + 1;
      if currentMonth > 12 {
        currentMonth := 1;
        currentYear := currentYear + 1;
      }
    }
    WalkArrives(step, from, exit, |results|);
    return Ok(results);
  }

  /** What the range generator returns, in closed form: the range error if
      "from" is after "to", otherwise the walk from "from" whose exit month
      is month_to + 1 of year_to, as the exit test of pxdatautil.py has it. */
  function RangeSpec(root: string, from: YearMonth, to: YearMonth): Result<seq<string>> {
    if !NotAfter(from, to) then Err(FromAfterTo)
    else WalkOutcome(PrefixStep(root), from, YearMonth(to.year, to.month + 1))
  }

  /** The range generator as written: check that "from" is not after "to",
      then walk month by month until the current month is month_to + 1 of
      year_to. Each prefix validates its month, so a walk that never meets
      that exit month ends with the year check failing at `Overflow`. */
  method DataFilepathPrefixes(root: string, from: YearMonth, to: YearMonth)
    returns (r: Result<seq<string>>)
    ensures r == RangeSpec(root, from, to)
  {
    if !NotAfter(from, to) {
      return Err(FromAfterTo);
    }
    r := WalkMonths(PrefixStep(root), from, YearMonth(to.year, to.month + 1));
  }

  /** The prefixes of a walk are the prefixes of the months it visits. */
  lemma StepsArePrefixes(root: string, from: YearMonth, n: nat)
    requires ValidDate(from) && MonthIndex(from) + n <= MonthIndex(Overflow)
    ensures var v := Steps(PrefixStep(root), from, n);
      forall i :: 0 <= i < n ==>
        && ValidDate(Advance(from, i))
        && MonthIndex(Advance(from, i)) == MonthIndex(from) + i
        && v[i] == FormatPrefix(root, Advance(from, i))
  {
  }

  /** The exit month with the December case corrected: after December the
      loop's wrap reaches January of the following year, so that is where a
      range ending in December must stop. Every other "to" month keeps the
      exit month_to + 1 of year_to that pxdatautil.py uses. */
  function CorrectedExit(to: YearMonth): (exit: YearMonth)
    ensures to.month != 12 ==> exit == YearMonth(to.year, to.month + 1)
    ensures ValidMonth(to.month) ==> exit == Next(to) && MonthIndex(exit) == MonthIndex(to) + 1
  {
    if to.month == 12 then YearMonth(to.year + 1, 1) else YearMonth(to.year, to.month + 1)
  }

  /** What the range generator returns once its exit test is corrected for
      December, in closed form. */
  function InclusiveSpec(root: string, from: YearMonth, to: YearMonth): Result<seq<string>> {
    if !NotAfter(from, to) then Err(FromAfterTo)
    else WalkOutcome(PrefixStep(root), from, CorrectedExit(to))
  }

  /** The corrected range generator: the same loop, stopping at the
      corrected exit month. Every range with valid ends is returned with both ends
      included, one prefix per month. */
  method InclusivePrefixes(root: string, from: YearMonth, to: YearMonth)
    returns (r: Result<seq<string>>)
    ensures r == InclusiveSpec(root, from, to)
    ensures NotAfter(from, to) && ValidDate(from) && ValidDate(to) ==>
              && r.Ok?
              && |r.value| == (to.year - from.year) * 12 + (to.month - from.month) + 1
              && (forall i :: 0 <= i < |r.value| ==> r.value[i] == FormatPrefix(root, Advance(from, i)))
  {
    hide FormatPrefix;
    if !NotAfter(from, to) {
      return Err(FromAfterTo);
    }
    r := WalkMonths(PrefixStep(root), from, CorrectedExit(to));
    if ValidDate(from) && ValidDate(to) {
      InclusiveRange(root, from, to);
      OutcomeEntries(root, from, CorrectedExit(to));
    }
  }

  /** With valid ends, the corrected range holds one prefix per month from
      "from" to "to", both included, December or not. */
  lemma InclusiveRange(root: string, from: YearMonth, to: YearMonth)
    requires NotAfter(from, to) && ValidDate(from) && ValidDate(to)
    ensures InclusiveSpec(root, from, to).Ok?
    ensures var v := InclusiveSpec(root, from, to).value;
      && |v| == (to.year - from.year) * 12 + (to.month - from.month) + 1
      && v[0] == FormatPrefix(root, from)
      && v[|v| - 1] == FormatPrefix(root, to)
  {
    hide FormatPrefix;
    InclusiveIsWalk(root, from, to);
    LastStep(root, from, to);
  }

  /** With valid ends, the corrected range is the walk of one prefix per
      month from "from" to "to". */
  lemma InclusiveIsWalk(root: string, from: YearMonth, to: YearMonth)
    requires NotAfter(from, to) && ValidDate(from) && ValidDate(to)
    ensures MonthIndex(from) <= MonthIndex(to)
    ensures InclusiveSpec(root, from, to) == Ok(Steps(PrefixStep(root), from, MonthIndex(to) - MonthIndex(from) + 1))
  {
    CalendarOrderIsIndexOrder(from, to);
    OutcomeIsSteps(PrefixStep(root), from, CorrectedExit(to), MonthIndex(to) - MonthIndex(from) + 1);
  }

  /** A December range, the input the as-written loop fails on, is returned
      by the corrected one. */
  lemma DecemberRangeIncluded(root: string)
    ensures InclusiveSpec(root, YearMonth(2013, 12), YearMonth(2013, 12))
            == Ok([FormatPrefix(root, YearMonth(2013, 12))])
  {
    var d := YearMonth(2013, 12);
    InclusiveRange(root, d, d);
    var v := InclusiveSpec(root, d, d).value;
    assert v == [v[0]];
  }

  /** Entry `i` of a successful walk of prefixes is the prefix of the month
      `i` steps after `from`, and reads back as that month. */
  lemma OutcomeEntries(root: string, from: YearMonth, exit: YearMonth)
    requires WalkOutcome(PrefixStep(root), from, exit).Ok?
    ensures var v := WalkOutcome(PrefixStep(root), from, exit).value;
      forall i :: 0 <= i < |v| ==>
        && ValidDate(Advance(from, i))
        && MonthIndex(Advance(from, i)) == MonthIndex(from) + i
        && v[i] == FormatPrefix(root, Advance(from, i))
        && YearMonthOfPrefix(v[i]) == Some(Advance(from, i))
  {
    var v := WalkOutcome(PrefixStep(root), from, exit).value;
    StepsArePrefixes(root, from, |v|);
    forall i | 0 <= i < |v|
      ensures YearMonthOfPrefix(v[i]) == Some(Advance(from, i))
    {
      PrefixRoundTrip(root, Advance(from, i));
    }
  }

  /** The correction changes exactly the December ranges: for every other
      "to" month, valid or not, both generators return the same outcome, and
      a valid December range that the as-written loop fails on succeeds. */
  lemma CorrectionOnlyDecember(root: string, from: YearMonth, to: YearMonth)
    ensures to.month != 12 ==> RangeSpec(root, from, to) == InclusiveSpec(root, from, to)
    ensures to.month == 12 && NotAfter(from, to) && ValidDate(from) && ValidYear(to.year) ==>
              RangeSpec(root, from, to) == Err(YearOutOfRange) && InclusiveSpec(root, from, to).Ok?
  {
    if to.month == 12 && NotAfter(from, to) && ValidDate(from) && ValidYear(to.year) {
      NoExitEndsInYearError(root, from, to);
      InclusiveRange(root, from, to);
    }
  }

  /** A "to" month of 13 is left as pxdatautil.py has it: the exit month 14 is
      never reached and the corrected range fails as the as-written one does. */
  lemma MonthThirteenStillFails(root: string)
    ensures InclusiveSpec(root, YearMonth(2013, 5), YearMonth(2013, 13)) == Err(YearOutOfRange)
  {
    CorrectionOnlyDecember(root, YearMonth(2013, 5), YearMonth(2013, 13));
    NoExitEndsInYearError(root, YearMonth(2013, 5), YearMonth(2013, 13));
  }

  /** For valid endpoints with "to" before December, the range is the walk
      of one prefix per month from "from" to "to". */
  lemma RangeIsWalk(root: string, from: YearMonth, to: YearMonth)
    requires ValidDate(from) && ValidDate(to) && to.month <= 11
    requires MonthIndex(from) <= MonthIndex(to)
    ensures NotAfter(from, to)
    ensures RangeSpec(root, from, to) == Ok(Steps(PrefixStep(root), from, MonthIndex(to) - MonthIndex(from) + 1))
  {
    CalendarOrderIsIndexOrder(from, to);
    OutcomeIsSteps(PrefixStep(root), from, YearMonth(to.year, to.month + 1),
                   MonthIndex(to) - MonthIndex(from) + 1);
  }

  /** A walk from a valid month to a genuine later exit month no later than
      `Overflow` returns one result per month before the exit. */
  lemma OutcomeIsSteps(step: (int, int) -> Result<string>, from: YearMonth, exit: YearMonth, n: nat)
    requires ChecksLikePrefix(step) && ValidDate(from) && ValidMonth(exit.month)
    requires 0 < n == MonthIndex(exit) - MonthIndex(from) && MonthIndex(exit) <= MonthIndex(Overflow)
    ensures WalkOutcome(step, from, exit) == Ok(Steps(step, from, n))
  {
  }

  /** A walk from a valid "from" to just past a valid "to" starts with the
      prefix of "from" and ends with the prefix of "to". */
  lemma LastStep(root: string, from: YearMonth, to: YearMonth)
    requires ValidDate(from) && ValidDate(to) && MonthIndex(from) <= MonthIndex(to)
    ensures var v := Steps(PrefixStep(root), from, MonthIndex(to) - MonthIndex(from) + 1);
      v[0] == FormatPrefix(root, from) && v[|v| - 1] == FormatPrefix(root, to)
  {
    var n := MonthIndex(to) - MonthIndex(from);
    StepsArePrefixes(root, from, n + 1);
    AdvanceReaches(from, to);
  }

  /** A range whose "from" is after its "to" is rejected, and only such a
      range gets that error. */
  lemma RangeRejectsReversed(root: string, from: YearMonth, to: YearMonth)
    ensures RangeSpec(root, from, to) == Err(FromAfterTo) <==> !NotAfter(from, to)
  {
  }

  /** Entry `i` of a successful range is the prefix of the month `i` steps
      after `from`, the one `i` places further along the calendar. */
  lemma RangeEntries(root: string, from: YearMonth, to: YearMonth)
    requires RangeSpec(root, from, to).Ok?
    ensures var v := RangeSpec(root, from, to).value;
      forall i :: 0 <= i < |v| ==>
        && ValidDate(Advance(from, i))
        && MonthIndex(Advance(from, i)) == MonthIndex(from) + i
        && v[i] == FormatPrefix(root, Advance(from, i))
        && YearMonthOfPrefix(v[i]) == Some(Advance(from, i))
  {
    OutcomeEntries(root, from, YearMonth(to.year, to.month + 1));
  }

  /** The entries of a successful range are in strictly increasing calendar
      order, so no month appears twice. */
  lemma RangeStrictlyIncreasing(root: string, from: YearMonth, to: YearMonth)
    requires RangeSpec(root, from, to).Ok?
    ensures var v := RangeSpec(root, from, to).value;
      forall i, j :: 0 <= i < j < |v| ==>
        && YearMonthOfPrefix(v[i]).Some? && YearMonthOfPrefix(v[j]).Some?
        && MonthIndex(YearMonthOfPrefix(v[i]).value) < MonthIndex(YearMonthOfPrefix(v[j]).value)
        && v[i] != v[j]
  {
    RangeEntries(root, from, to);
  }

  /** With both endpoints valid and "to" in January to November, the range
      holds one entry per month from "from" to "to", both included, and ends
      on them. */
  lemma RangeCount(root: string, from: YearMonth, to: YearMonth)
    requires NotAfter(from, to) && ValidDate(from) && ValidDate(to) && to.month <= 11
    ensures RangeSpec(root, from, to).Ok?
    ensures var v := RangeSpec(root, from, to).value;
      && |v| == (to.year - from.year) * 12 + (to.month - from.month) + 1
      && v[0] == FormatPrefix(root, from)
      && v[|v| - 1] == FormatPrefix(root, to)
  {
    hide FormatPrefix;
    CalendarOrderIsIndexOrder(from, to);
    RangeIsWalk(root, from, to);
    LastStep(root, from, to);
  }

  /** A one-month range holds exactly that month's prefix, unless the month
      is December. */
  lemma RangeSingleMonth(root: string, d: YearMonth)
    requires ValidDate(d) && d.month <= 11
    ensures RangeSpec(root, d, d) == Ok([FormatPrefix(root, d)])
  {
    RangeCount(root, d, d);
    var v := RangeSpec(root, d, d).value;
    assert v == [v[0]];
  }

  /** When "to" is December (or any month_to whose successor the wrap never
      produces) the exit test never fires: the walk runs on until the year
      check fails, and no list is returned. */
  lemma NoExitEndsInYearError(root: string, from: YearMonth, to: YearMonth)
    requires NotAfter(from, to) && ValidDate(from)
    requires !(0 <= to.month <= 11)
    ensures RangeSpec(root, from, to) == Err(YearOutOfRange)
  {
  }

  /** The input that shows it: December 2013 to December 2013. */
  lemma DecemberRangeFails(root: string)
    ensures RangeSpec(root, YearMonth(2013, 12), YearMonth(2013, 12)) == Err(YearOutOfRange)
  {
    NoExitEndsInYearError(root, YearMonth(2013, 12), YearMonth(2013, 12));
  }

  /** month_to == 0 is accepted: the exit test fires at January of year_to,
      so the range ends with December of the year before. */
  lemma MonthZeroEndsInDecember(root: string, from: YearMonth, year: int)
    requires ValidDate(from) && from.year < year <= LastYear + 1
    ensures RangeSpec(root, from, YearMonth(year, 0)).Ok?
    ensures var v := RangeSpec(root, from, YearMonth(year, 0)).value;
      && |v| == MonthIndex(YearMonth(year - 1, 12)) - MonthIndex(from) + 1
      && v[|v| - 1] == FormatPrefix(root, YearMonth(year - 1, 12))
  {
    hide FormatPrefix;
    var last := YearMonth(year - 1, 12);
    CalendarOrderIsIndexOrder(from, last);
    OutcomeIsSteps(PrefixStep(root), from, YearMonth(year, 1), MonthIndex(last) - MonthIndex(from) + 1);
    LastStep(root, from, last);
  }

  /** Worked example: November 2013 to February 2014 gives four months,
      carrying into 2014 after December. */
  lemma RangeAcrossYearEnd(root: string)
    ensures var r := RangeSpec(root, YearMonth(2013, 11), YearMonth(2014, 2));
      && r.Ok? && |r.value| == 4
      && YearMonthOfPrefix(r.value[0]) == Some(YearMonth(2013, 11))
      && YearMonthOfPrefix(r.value[1]) == Some(YearMonth(2013, 12))
      && YearMonthOfPrefix(r.value[2]) == Some(YearMonth(2014, 1))
      && YearMonthOfPrefix(r.value[3]) == Some(YearMonth(2014, 2))
  {
    var from := YearMonth(2013, 11);
    RangeEntries(root, from, YearMonth(2014, 2));
    assert Advance(from, 1) == YearMonth(2013, 12);
    assert Advance(from, 2) == YearMonth(2014, 1);
    assert Advance(from, 3) == YearMonth(2014, 2);
  }

  /** The paths of one kind of file for every month of a range: the prefix
      list with the kind's suffix appended to each entry, or the prefix
      list's error. */
  method DataFilepaths(root: string, from: YearMonth, to: YearMonth, kind: DataKind)
    returns (r: Result<seq<string>>)
    ensures InclusiveSpec(root, from, to).Err? ==> r == InclusiveSpec(root, from, to)
    ensures InclusiveSpec(root, from, to).Ok? ==>
      var prefixes := InclusiveSpec(root, from, to).value;
      && r.Ok? && |r.value| == |prefixes|
      && forall i :: 0 <= i < |r.value| ==> r.value[i] == prefixes[i] + kind.Suffix()
    ensures r.Ok? ==> forall i :: 0 <= i < |r.value| ==>
      KindOfPath(r.value[i]) == Some(kind) && YearMonthOfPath(r.value[i]) == Some(Advance(from, i))
  {
    var prefixes := InclusivePrefixes(root, from, to);
    if prefixes.Err? {
      return Err(prefixes.error);
    }
    var p := prefixes.value;
    OutcomeEntries(root, from, CorrectedExit(to));
    var paths := seq(|p|, i requires 0 <= i < |p| => p[i] + kind.Suffix());
    forall i | 0 <= i < |paths|
      ensures KindOfPath(paths[i]) == Some(kind) && YearMonthOfPath(paths[i]) == Some(Advance(from, i))
    {
      SuffixedPrefix(root, Advance(from, i), kind);
    }
    return Ok(paths);
  }

  /** The three path lists the data check builds for a range. */
  datatype RangeFiles = RangeFiles(address: seq<string>, chemicals: seq<string>, prescription: seq<string>)

  /** The list-building part of the data check: the address, chemicals and
      prescription paths of a range, which have the same length and whose
      entries at one index name the same month. */
  method CheckDataLists(root: string, from: YearMonth, to: YearMonth) returns (r: Result<RangeFiles>)
    ensures r.Err? <==> InclusiveSpec(root, from, to).Err?
    ensures r.Err? ==> r.error == InclusiveSpec(root, from, to).error
    ensures r.Ok? ==>
      && |r.value.address| == |InclusiveSpec(root, from, to).value|
      && |r.value.chemicals| == |r.value.address|
      && |r.value.prescription| == |r.value.address|
    ensures r.Ok? ==> forall i :: 0 <= i < |r.value.address| ==>
      && r.value.address[i] == InclusiveSpec(root, from, to).value[i] + Address.Suffix()
      && r.value.chemicals[i] == InclusiveSpec(root, from, to).value[i] + Chemicals.Suffix()
      && r.value.prescription[i] == InclusiveSpec(root, from, to).value[i] + Prescription.Suffix()
    ensures r.Ok? ==> forall i :: 0 <= i < |r.value.address| ==>
      && KindOfPath(r.value.address[i]) == Some(Address)
      && KindOfPath(r.value.chemicals[i]) == Some(Chemicals)
      && KindOfPath(r.value.prescription[i]) == Some(Prescription)
      && YearMonthOfPath(r.value.address[i]) == Some(Advance(from, i))
      && YearMonthOfPath(r.value.chemicals[i]) == YearMonthOfPath(r.value.address[i])
      && YearMonthOfPath(r.value.prescription[i]) == YearMonthOfPath(r.value.address[i])
    ensures NotAfter(from, to) && ValidDate(from) && ValidDate(to) ==>
      r.Ok? && |r.value.address| == (to.year - from.year) * 12 + (to.month - from.month) + 1
  {
    if NotAfter(from, to) && ValidDate(from) && ValidDate(to) {
      InclusiveRange(root, from, to);
    }
    var address := DataFilepaths(root, from, to, Address);
    if address.Err? {
      return Err(address.error);
    }
    var chemicals := DataFilepaths(root, from, to, Chemicals);
    var prescription := DataFilepaths(root, from, to, Prescription);
    return Ok(RangeFiles(address.value, chemicals.value, prescription.value));
  }

  /** The order in which the data check tests the files for existence:
      month by month, and within a month the address, chemicals and
      prescription file. */
  function CheckedPaths(address: seq<string>, chemicals: seq<string>, prescription: seq<string>)
    : (r: seq<string>)
    requires |chemicals| == |address| && |prescription| == |address|
    ensures |r| == 3 * |address|
    ensures forall i :: 0 <= i < |address| ==>
      && r[3 * i] == address[i]
      && r[3 * i + 1] == chemicals[i]
      && r[3 * i + 2] == prescription[i]
  {
    if |address| == 0 then []
    else [address[0], chemicals[0], prescription[0]]
         + CheckedPaths(address[1..], chemicals[1..], prescription[1..])
  }
}
